=== FILE: README.md ===
# AadharX QR scanner: identifier extraction and scan session in Dafny

This project models the core of the browser QR scanner in `frontend/scanner.js`.

- **Identifier extraction.** `QRScanner.extractAadhaar` tries an ordered list of four regular expressions against the decoded QR text:
  - `/AADHAAR:(\d{12})/i`
  - `/UID:(\d{12})/i`
  - `/(\d{4}\s?\d{4}\s?\d{4})/`
  - `/^(\d{12})$/`

  The list is `Patterns.AadhaarPatterns`. The function strips every non-digit from the first capture that matches. It returns that value when exactly twelve digits remain, and `null` otherwise.
- **Scan session.** The fields `html5QrCode`, `scanning`, `scanTimer` and `scanStartTime` of a `QRScanner`, and the global `window.scannedAadhaar`. They are changed by the constructor, `startCamera`, `stopCamera`, `onScanSuccess` and `cleanup`.
- **Timer label.** The timer shows `00:` followed by the elapsed seconds padded to two digits.

The regular-expression semantics are written out by hand:

- `\d` is the ASCII digits `0`-`9`.
- `\s` is the ECMAScript WhiteSpace and LineTerminator set.
- The model folds only `a`-`z` under the `i` flag. JavaScript also folds non-ASCII pairs such as `é` and `É`, but without `u` it never folds a non-ASCII character onto an ASCII one. The tags are ASCII, so for them this gives the same matches.
- `match` returns the leftmost match, with its index, `match[0]` and `match[1]`.
- The greedy `\s?` is written as the engine runs it. Lemmas prove it equal to the declarative language of the pattern.

Modules:

| file | module | contents |
|---|---|---|
| `wrappers.dfy` | `Wrappers` | `Option`, for `null`-or-value fields |
| `jstext.dfy` | `JsText` | `\d`, `\s`, case folding of the `i` flag, `replace(/\D/g, "")` |
| `patterns.dfy` | `Patterns` | the four patterns and `text.match(pattern)` |
| `extraction.dfy` | `Extraction` | `extractAadhaar` as a function over the pattern list and as the loop method, with the ordering lemmas |
| `scantimer.dfy` | `ScanTimer` | `String(n)`, `padStart`, the timer label, `Math.floor` of elapsed milliseconds |
| `scanner.dfy` | `Scanner` | the `QRScanner` class, its session as a value, the transition functions and the session invariant |

Results about the source as written:

- Every pattern's capture keeps exactly twelve digits once stripped, so the length check at `frontend/scanner.js:135` never rejects a match. The result is `null` exactly when none of the four patterns matches.
- The fourth pattern never decides anything. Any text it matches is also matched, in full, by the grouped pattern, which is tried first.
- Extraction ignores ASCII letter case: texts that differ only in the case of ASCII letters give the same result.
- The label's minutes field is always `00`: after 75 seconds it reads `00:75`.

## Model

| member | source | states |
|---|---|---|
| `JsText.DigitClass` | frontend/scanner.js:14-17 | `IsDigit`, the class `\d`, holds exactly for the ten ASCII digits |
| `JsText.SpaceClass` | frontend/scanner.js:16 | `IsSpace`, the class `\s`, includes space, tab, line feed and carriage return; no whitespace character is a digit, and case folding leaves it unchanged |
| `JsText.Canonical` | frontend/scanner.js:14-15 | the folded character is never a lower-case ASCII letter, and only `a`-`z` change |
| `JsText.CanonicalMatches` | frontend/scanner.js:14-15 | under the `i` flag, as the model folds it, two characters match exactly when they are equal or one is a lower-case ASCII letter and the other its capital |
| `JsText.StripNonDigits` | frontend/scanner.js:134 | the result contains only ASCII digits and is no longer than the input |
| `JsText.StripDropsNonDigits` | frontend/scanner.js:134 | a string with no digit strips to the empty string; with `StripConcat` and `StripKeepsDigits` this determines the result for every input |
| `JsText.StripKeepsDigits` | frontend/scanner.js:134 | a string of digits only comes back unchanged |
| `JsText.StripConcat` | frontend/scanner.js:134 | stripping distributes over concatenation |
| `JsText.CanonicalKeepsDigitsAndSpaces` | frontend/scanner.js:14-16 | two characters equal under the `i` flag are both digits or neither (and then the same digit), and both whitespace or neither (and then the same) |
| `JsText.StripIgnoresCase` | frontend/scanner.js:134 | strings equal up to ASCII letter case keep the same digits |
| `Patterns.BlockEnd` | frontend/scanner.js:16 | one `\s?\d{4}` step consumes four or five characters and stays inside the text |
| `Patterns.GroupedEnd` | frontend/scanner.js:16 | a grouped match starting at i is 12 to 14 characters long and ends inside the text |
| `Patterns.MatchAt` | frontend/scanner.js:13-18 | a match at i reports index i, its `match[0]` is the slice of the text that starts at i and is as long as the match, and its capture has at least twelve characters |
| `Patterns.SearchFrom` | frontend/scanner.js:131 | the hit returned is a match at its index, and no earlier position matches; no hit iff no position matches |
| `Patterns.ExecLeftmost` | frontend/scanner.js:131 | `Exec`, that is `text.match(pattern)`, returns a match at its own index with no match at any earlier position, and `null` iff no position matches |
| `Patterns.GroupedEndSound` | frontend/scanner.js:16 | what the greedy engine matches is a word of `\d{4}\s?\d{4}\s?\d{4}` whose twelve digits are exactly its stripped form |
| `Patterns.GroupedEndComplete` | frontend/scanner.js:16 | every word of `\d{4}\s?\d{4}\s?\d{4}` starting at i is found, with the same end, so backtracking order does not matter |
| `Patterns.CaptureKeepsTwelveDigits` | frontend/scanner.js:133-135 | for every pattern, a match's capture strips to exactly twelve digits, and outside the grouped pattern it is already those twelve digits |
| `Patterns.MatchAtIgnoresCase` | frontend/scanner.js:14-17 | whether a pattern matches at i, and the digits it keeps, do not depend on ASCII letter case |
| `Patterns.SearchFromIgnoresCase` | frontend/scanner.js:131 | the leftmost match's position and digits do not depend on ASCII letter case |
| `Extraction.ExtractWith` | frontend/scanner.js:129-139 | any non-null result is exactly twelve ASCII digits |
| `Extraction.Extract` | frontend/scanner.js:129-139 | `extractAadhaar` with the four patterns: any non-null result is exactly twelve ASCII digits |
| `Extraction.ExtractAadhaar` | frontend/scanner.js:129-139 | the loop with early return computes the same result as the pattern-list function, and so returns twelve ASCII digits or `null` |
| `Extraction.ExecCapture` | frontend/scanner.js:133-135 | `Capture`, the `or` of `match[1]` and `match[0]` at line 133, is the capture group on every hit because the group is never empty; the group strips to twelve digits |
| `Extraction.FirstHitDecides` | frontend/scanner.js:130-136 | the first pattern in the list that matches decides the result: its stripped capture |
| `Extraction.NoResultIffNoHit` | frontend/scanner.js:130-138 | the result is `null` iff no pattern in the list matches; the length check never rejects a match |
| `Extraction.ExtractNullIffNoPatternMatches` | frontend/scanner.js:130-138 | `extractAadhaar` returns `null` iff none of the four patterns matches anywhere in the text |
| `Extraction.ExtractFollowsPatternOrder` | frontend/scanner.js:13-18 | an `AADHAAR:` hit decides first, wherever it is; failing that a `UID:` hit; failing both the leftmost digit group, with its separators removed |
| `Extraction.ExtractWithIgnoresCase` | frontend/scanner.js:14-15 | extraction over any pattern list gives the same result for texts equal up to ASCII letter case |
| `Extraction.ExtractIgnoresCase` | frontend/scanner.js:14-15 | `extractAadhaar` gives the same result for texts equal up to ASCII letter case |
| `Extraction.GroupedPicksLeftmost` | frontend/scanner.js:16 | the grouped hit is the leftmost word of its language and the only one starting there; its result is that word's twelve digits with the separators removed |
| `Extraction.WholeNeverDecides` | frontend/scanner.js:17 | a text matched by `/^(\d{12})$/` is twelve digits, is matched whole by the grouped pattern, and is its own result |
| `Extraction.AadhaarTagInAnyCase` | frontend/scanner.js:14 | an `AADHAAR:` tag in any case, followed at once by twelve digits at the start, yields those digits whatever follows |
| `Extraction.UidTagInAnyCase` | frontend/scanner.js:15 | a text that is exactly a `UID:` tag, in any case, followed by twelve digits yields those digits |
| `Extraction.LowerCaseAadhaarTag` | frontend/scanner.js:14 | `aadhaar:123456789012` yields `123456789012` |
| `Extraction.MixedCaseUidTag` | frontend/scanner.js:15 | `Uid:123456789012` yields `123456789012` |
| `Extraction.SpaceAfterTagFallsThrough` | frontend/scanner.js:15-16 | for a text that is exactly `UID: ` followed by twelve digits, the tag pattern does not match because of the space; the grouped pattern finds the digits at position 5 instead, and they are the result |
| `Extraction.TagBeatsEarlierGroup` | frontend/scanner.js:15-16 | in `g UID:d` the grouped pattern hits `g` at position 0, yet the result is `d` |
| `ScanTimer.DecimalString` | frontend/scanner.js:164 | `String(n)` is one or more digits with no leading zero, and one digit exactly below ten |
| `ScanTimer.JsString` | frontend/scanner.js:164 | `String(n)` reads back as n: for n >= 0 it is digits whose value is n, with no leading zero unless n is 0; for n < 0 it is a minus sign followed by digits, without a leading zero, whose value is -n |
| `ScanTimer.PadStart` | frontend/scanner.js:164 | the result has the requested width (or the input's, if longer), ends with the input, and is filled before it |
| `ScanTimer.TimerLabel` | frontend/scanner.js:164 | the label is `00:` followed by `String(seconds)` left-padded with `0` to exactly two characters: its length is 3 plus the larger of 2 and the length of `String(seconds)` |
| `ScanTimer.ElapsedSeconds` | frontend/scanner.js:162 | the whole seconds s satisfy s*1000 <= elapsed ms < (s+1)*1000 |
| `ScanTimer.DecimalRoundTrip` | frontend/scanner.js:164 | reading back `String(n)` gives n |
| `ScanTimer.LeadingZero` | frontend/scanner.js:164 | the zero that `padStart` adds does not change the value shown |
| `ScanTimer.DecimalWidth` | frontend/scanner.js:164 | `String(n)` fits in two characters iff n < 100 |
| `ScanTimer.TimerLabelShowsSeconds` | frontend/scanner.js:162-164 | the label is `00:` then digits whose value is the elapsed seconds; it is five characters iff the count is below 100, and longer labels carry no padding zero; the minutes field stays `00` |
| `ScanTimer.TimerLabelInjective` | frontend/scanner.js:163-164 | different non-negative second counts show different labels |
| `ScanTimer.NegativeElapsedLabel` | frontend/scanner.js:162-164 | a negative count (a clock that went backwards) is shown as `00:-n` |
| `Scanner.Started` | frontend/scanner.js:84-107 | with a reader and a successful library start the session is scanning with the new timer and start time; otherwise it is unchanged; the invariant is kept |
| `Scanner.Stopped` | frontend/scanner.js:109-115 | nothing changes unless there is a reader and scanning is on; afterwards a consistent session is not scanning and has no timer |
| `Scanner.CleanedUp` | frontend/scanner.js:173-176 | the reader is dropped, and a consistent session ends up not scanning, with no timer |
| `Scanner.AfterScan` | frontend/scanner.js:117-127 | when extraction gives `null` nothing changes; otherwise the camera is stopped and exactly the extracted twelve digits are stored |
| `Scanner.StopIdempotent` | frontend/scanner.js:109-115 | stopping twice is the same as stopping once |
| `Scanner.CleanupIdempotent` | frontend/scanner.js:173-176 | a second cleanup changes nothing |
| `Scanner.RunKeepsInvariant` | frontend/scanner.js:84-127 | over any sequence of attach, start, stop, decode and cleanup calls, the timer runs exactly while scanning, scanning needs a reader, and the stored identifier is unset or twelve digits |
| `Scanner.FromFreshScanner` | frontend/scanner.js:6-11 | the invariant holds after any such sequence that starts from a newly constructed scanner |
| `Scanner.Window.constructor` | frontend/scanner.js:125 | before any scan, `window.scannedAadhaar` is unset |
| `Scanner.QRScanner.constructor` | frontend/scanner.js:6-11 | a new scanner has no reader, is not scanning, and has no timer or start time |
| `Scanner.QRScanner.AttachReader` | frontend/scanner.js:36 | a reader is attached and nothing else changes |
| `Scanner.QRScanner.StartTimer` | frontend/scanner.js:159-166 | the start time and interval handle are recorded; nothing else changes |
| `Scanner.QRScanner.StopTimer` | frontend/scanner.js:168-171 | the timer handle is cleared; nothing else changes |
| `Scanner.QRScanner.StartCamera` | frontend/scanner.js:84-107 | the new state is `Started` of the old one, and the invariant is kept |
| `Scanner.QRScanner.StopCamera` | frontend/scanner.js:109-115 | the new state is `Stopped` of the old one; afterwards the scanner is not scanning and has no timer |
| `Scanner.QRScanner.OnScanSuccess` | frontend/scanner.js:117-127 | the session and `window.scannedAadhaar` change exactly as `AfterScan` says |
| `Scanner.QRScanner.Cleanup` | frontend/scanner.js:173-176 | the new state is `CleanedUp` of the old one: no reader, not scanning, no timer |
| `Scanner.QRScanner.TimerText` | frontend/scanner.js:161-164 | once the clock has reached the start time, the label is `00:` then digits whose value is the whole seconds elapsed since the scan started; exactly two digits below 100 seconds, and from 100 on the count's own digits with no padding zero |

## Left out

- `initialize` and `loadCameras` (`frontend/scanner.js:22-82`) are left out. They handle camera permission, the check that the library is loaded, device enumeration, filling the camera `<select>` and its `onchange` handler, and all of them call `navigator.mediaDevices` or `Html5Qrcode`. Only their attaching of a reader is modelled, as `AttachReader`. The `cameraId` field is left out with them, because only they set it.
- The camera library is not modelled. Whether `Html5Qrcode.start` succeeds is a parameter of `StartCamera`. A missing reader takes the same error path, as the `TypeError` from `null.start` does in the source.
- Scanner.QRScanner.StopCamera assumes `Html5Qrcode.stop` succeeds. In the source a rejected `stop` would leave the fields unchanged and propagate the rejection.
- Browser timers and the clock are parameters. `Date.now()` is the `nowMs` parameter and the `setInterval` handle is the `timer` parameter. `clearInterval` is not modelled beyond forgetting the handle. The interval callback is modelled as `TimerText` at a given time.
- `startCamera` on a scanner that is already scanning overwrites `scanTimer` without clearing the old interval. The model keeps this behaviour and does not model the leaked interval.
- Asynchrony is not modelled. `onScanSuccess` and `cleanup` do not await `stopCamera`, and the camera `onchange` handler does not await it before `startCamera`. The model runs each call to completion before the next, so it does not capture interleavings.
- DOM output is not modelled: `showError`, `updateStatus`, the `scanResult`/`scannedData` writes in `onScanSuccess`, and the global handlers `openQRScanner`, `closeQRScanner` and `useScannedData` (`frontend/scanner.js:141-157`, `183-205`).
- JavaScript strings are UTF-16 code units, while Dafny `char` is a Unicode scalar value. None of the patterns can match a character outside the Basic Multilingual Plane, or either half of one, so this does not change any result. Lone surrogates cannot be expressed.
- A `Tagged` pattern is defined only for ASCII tags, which are the only ones the source uses. Case folding of non-ASCII letters is not modelled.
- `ScanTimer.JsString` and `ScanTimer.DecimalString` write every integer in plain decimal. JavaScript writes integers of 1e21 and above in exponent form (`1e+21`). The elapsed seconds of a scan stay far below that for any `Date.now()` value, so the label is unaffected.
- `frontend/script.js` is not part of this model. Its fetch, templating and alerts are outside it. Its input guards check length or non-emptiness only and do not check digits.

=== FILE: extraction.dfy ===
/**
 * `QRScanner.extractAadhaar`: try the patterns in order; the first one that
 * matches and whose capture keeps twelve digits once stripped gives the
 * identifier; otherwise `null`.
 */
module Extraction {
  import opened Wrappers
  import opened JsText
  import opened Patterns

  /**
   * `match[1] || match[0]`: `||` yields its left operand when that is truthy,
   * and the only falsy string is the empty one.
   */
  function Capture(m: Match): string {
    if m.group != [] then m.group else m.whole
  }

  /** The loop of `extractAadhaar` over a list of patterns. */
  function ExtractWith(patterns: seq<Pattern>, text: string): (r: Option<string>)
    ensures r.Some? ==> |r.value| == 12 && AllDigits(r.value)
  {
    if patterns == [] then None
    else match Exec(patterns[0], text)
      case Some(m) =>
        var clean := StripNonDigits(Capture(m));
        if |clean| == 12 then Some(clean) else ExtractWith(patterns[1..], text)
      case None => ExtractWith(patterns[1..], text)
  }

  /** `extractAadhaar(text)` with the scanner's own pattern list. */
  function Extract(text: string): (r: Option<string>)
    ensures r.Some? ==> |r.value| == 12 && AllDigits(r.value)
  {
    ExtractWith(AadhaarPatterns, text)
  }

  /** The method as written: a loop over the patterns with an early return. */
  method ExtractAadhaar(text: string) returns (r: Option<string>)
    ensures r == Extract(text)
    ensures r.Some? ==> |r.value| == 12 && AllDigits(r.value)
  {
    var patterns := AadhaarPatterns;
    for i := 0 to |patterns|
      invariant ExtractWith(patterns[i..], text) == Extract(text)
    {
      assert patterns[i..][0] == patterns[i] && patterns[i..][1..] == patterns[i + 1..];
      var m := Exec(patterns[i], text);
      if m.Some? {
        var num := Capture(m.value);
        var clean := StripNonDigits(num);
        if |clean| == 12 {
          return Some(clean);
        }
      }
    }
    return None;
  }

  /** The capture of a hit is its non-empty group, which strips to twelve digits. */
  lemma ExecCapture(p: Pattern, text: string)
    requires Exec(p, text).Some?
    ensures Capture(Exec(p, text).value) == Exec(p, text).value.group
    ensures |StripNonDigits(Exec(p, text).value.group)| == 12
    ensures !p.Grouped? ==> StripNonDigits(Exec(p, text).value.group) == Exec(p, text).value.group
  {
    CaptureKeepsTwelveDigits(p, text, Exec(p, text).value.index);
  }

  /** The first pattern in the list that matches decides the result. */
  lemma {:induction false} FirstHitDecides(patterns: seq<Pattern>, text: string, k: nat)
    requires k < |patterns| && Exec(patterns[k], text).Some?
    requires forall j :: 0 <= j < k ==> Exec(patterns[j], text).None?
    ensures ExtractWith(patterns, text) == Some(StripNonDigits(Exec(patterns[k], text).value.group))
  {
    if k == 0 {
      ExecCapture(patterns[0], text);
    } else {
      assert Exec(patterns[0], text).None?;
      assert ExtractWith(patterns, text) == ExtractWith(patterns[1..], text);
      var rest := patterns[1..];
      forall j | 0 <= j < k - 1
        ensures Exec(rest[j], text).None?
      {
        assert rest[j] == patterns[j + 1];
      }
      assert rest[k - 1] == patterns[k];
      FirstHitDecides(rest, text, k - 1);
    }
  }

  /** No result exactly when no pattern in the list matches: the length check never rejects. */
  lemma {:induction false} NoResultIffNoHit(patterns: seq<Pattern>, text: string)
    ensures ExtractWith(patterns, text).None? <==> forall j :: 0 <= j < |patterns| ==> Exec(patterns[j], text).None?
  {
    if patterns != [] {
      NoResultIffNoHit(patterns[1..], text);
      assert forall j :: 1 <= j < |patterns| ==> patterns[j] == patterns[1..][j - 1];
      if Exec(patterns[0], text).Some? {
        ExecCapture(patterns[0], text);
      }
    }
  }

  /** `extractAadhaar` returns `null` iff none of the four patterns matches. */
  lemma ExtractNullIffNoPatternMatches(text: string)
    ensures Extract(text).None? <==>
      Exec(Tagged("AADHAAR:"), text).None? && Exec(Tagged("UID:"), text).None?
      && Exec(Grouped, text).None? && Exec(Whole, text).None?
  {
    var ps := AadhaarPatterns;
    NoResultIffNoHit(ps, text);
    assert ps[0] == Tagged("AADHAAR:") && ps[1] == Tagged("UID:") && ps[2] == Grouped && ps[3] == Whole;
  }

  /**
   * The list's order decides: an `AADHAAR:` tag first, then a `UID:` tag
   * (wherever a bare digit group appears), then the leftmost digit group.
   */
  lemma ExtractFollowsPatternOrder(text: string)
    ensures Exec(Tagged("AADHAAR:"), text).Some? ==>
      Extract(text) == Some(Exec(Tagged("AADHAAR:"), text).value.group)
    ensures Exec(Tagged("AADHAAR:"), text).None? && Exec(Tagged("UID:"), text).Some? ==>
      Extract(text) == Some(Exec(Tagged("UID:"), text).value.group)
    ensures Exec(Tagged("AADHAAR:"), text).None? && Exec(Tagged("UID:"), text).None? && Exec(Grouped, text).Some? ==>
      Extract(text) == Some(StripNonDigits(Exec(Grouped, text).value.group))
  {
    if Exec(Tagged("AADHAAR:"), text).Some? {
      AadhaarTagDecides(text);
    } else if Exec(Tagged("UID:"), text).Some? {
      UidTagDecides(text);
    } else if Exec(Grouped, text).Some? {
      GroupDecides(text);
    }
  }

  lemma AadhaarTagDecides(text: string)
    requires Exec(Tagged("AADHAAR:"), text).Some?
    ensures Extract(text) == Some(Exec(Tagged("AADHAAR:"), text).value.group)
  {
    assert AadhaarPatterns[0] == Tagged("AADHAAR:");
    FirstHitDecides(AadhaarPatterns, text, 0);
    ExecCapture(Tagged("AADHAAR:"), text);
  }

  lemma UidTagDecides(text: string)
    requires Exec(Tagged("AADHAAR:"), text).None? && Exec(Tagged("UID:"), text).Some?
    ensures Extract(text) == Some(Exec(Tagged("UID:"), text).value.group)
  {
    var ps := AadhaarPatterns;
    assert ps[0] == Tagged("AADHAAR:") && ps[1] == Tagged("UID:");
    FirstHitDecides(ps, text, 1);
    ExecCapture(Tagged("UID:"), text);
  }

  lemma GroupDecides(text: string)
    requires Exec(Tagged("AADHAAR:"), text).None? && Exec(Tagged("UID:"), text).None? && Exec(Grouped, text).Some?
    ensures Extract(text) == Some(StripNonDigits(Exec(Grouped, text).value.group))
  {
    var ps := AadhaarPatterns;
    assert ps[0] == Tagged("AADHAAR:") && ps[1] == Tagged("UID:") && ps[2] == Grouped;
    FirstHitDecides(ps, text, 2);
  }

  /** The whole extraction is blind to ASCII letter case: `aadhaar:` and `Uid:` work like `AADHAAR:` and `UID:`. */
  lemma {:induction false} ExtractWithIgnoresCase(patterns: seq<Pattern>, t1: string, t2: string)
    requires EqualsIgnoreCase(t1, t2)
    ensures ExtractWith(patterns, t1) == ExtractWith(patterns, t2)
  {
    if patterns != [] {
      SearchFromIgnoresCase(patterns[0], t1, t2, 0);
      ExtractWithIgnoresCase(patterns[1..], t1, t2);
      if Exec(patterns[0], t1).Some? {
        ExecCapture(patterns[0], t1);
        ExecCapture(patterns[0], t2);
      }
    }
  }

  lemma ExtractIgnoresCase(t1: string, t2: string)
    requires EqualsIgnoreCase(t1, t2)
    ensures Extract(t1) == Extract(t2)
  {
    ExtractWithIgnoresCase(AadhaarPatterns, t1, t2);
  }

  /**
   * The grouped pattern picks the leftmost word of `\d{4}\s?\d{4}\s?\d{4}`; that
   * word is the only one starting there, and the digits kept are its twelve
   * digits with the separators removed.
   */
  lemma GroupedPicksLeftmost(text: string)
    requires Exec(Grouped, text).Some?
    ensures var m := Exec(Grouped, text).value;
      && m.group == m.whole
      && (exists w1, w2 :: GroupedForm(m.whole, StripNonDigits(m.group), w1, w2))
      && (forall e :: m.index <= e <= |text| && IsGroupedWord(text[m.index..e]) ==> e == m.index + |m.whole|)
      && (forall j, e :: 0 <= j < m.index && j <= e <= |text| ==> !IsGroupedWord(text[j..e]))
  {
    var m := Exec(Grouped, text).value;
    assert MatchAt(Grouped, text, m.index) == Some(m);
    var end := GroupedEnd(text, m.index).value;
    GroupedEndSound(text, m.index, end);
    forall e | m.index <= e <= |text| && IsGroupedWord(text[m.index..e])
      ensures e == m.index + |m.whole|
    {
      var d, w1, w2 :| GroupedForm(text[m.index..e], d, w1, w2);
      GroupedEndComplete(text, m.index, e, d, w1, w2);
    }
    forall j, e | 0 <= j < m.index && j <= e <= |text|
      ensures !IsGroupedWord(text[j..e])
    {
      assert MatchAt(Grouped, text, j).None?;
      if IsGroupedWord(text[j..e]) {
        var d, w1, w2 :| GroupedForm(text[j..e], d, w1, w2);
        GroupedEndComplete(text, j, e, d, w1, w2);
      }
    }
  }

  /**
   * `/^(\d{12})$/` never decides anything: a text it matches is already matched,
   * whole, by the grouped pattern, and is its own result.
   */
  lemma WholeNeverDecides(text: string)
    requires Exec(Whole, text).Some?
    ensures |text| == 12 && AllDigits(text)
    ensures Exec(Grouped, text) == Some(Match(0, text, text))
    ensures Extract(text) == Some(text)
  {
    assert MatchAt(Whole, text, Exec(Whole, text).value.index).Some?;
    assert GroupedForm(text[0..12], text, [], []) by {
      assert text[..4] + [] + text[4..8] + [] + text[8..] == text;
    }
    GroupedEndComplete(text, 0, 12, text, [], []);
    assert MatchAt(Grouped, text, 0) == Some(Match(0, text, text));
    forall tag: string, j | |tag| > 0 && 0 <= j <= |text|
      ensures MatchAt(Tagged(tag), text, j).None?
    {
    }
    assert Exec(Tagged("AADHAAR:"), text).None?;
    assert Exec(Tagged("UID:"), text).None?;
    StripKeepsDigits(text);
    ExtractFollowsPatternOrder(text);
  }

  /**
   * A tag written in any mix of ASCII letter case and followed at once by twelve digits
   * yields those digits, whatever follows them.
   */
  lemma AadhaarTagInAnyCase(w: string, d: string, rest: string)
    requires EqualsIgnoreCase(w, "AADHAAR:") && |d| == 12 && AllDigits(d)
    ensures Extract(w + d + rest) == Some(d)
  {
    var t := w + d + rest;
    assert t[0..8] == w && t[8..20] == d;
    assert MatchAt(Tagged("AADHAAR:"), t, 0) == Some(Match(0, t[0..20], d));
    ExtractFollowsPatternOrder(t);
  }

  lemma UidTagInAnyCase(w: string, d: string)
    requires EqualsIgnoreCase(w, "UID:") && |d| == 12 && AllDigits(d)
    ensures Extract(w + d) == Some(d)
  {
    var t := w + d;
    assert t[0..4] == w && t[4..16] == d && t[0..16] == t;
    assert MatchAt(Tagged("UID:"), t, 0) == Some(Match(0, t, d));
    assert Exec(Tagged("AADHAAR:"), t).None?;
    ExtractFollowsPatternOrder(t);
  }

  /** So `aadhaar:` works like `AADHAAR:` ... */
  lemma LowerCaseAadhaarTag()
    ensures Extract("aadhaar:123456789012") == Some("123456789012")
  {
    assert EqualsIgnoreCase("aadhaar:", "AADHAAR:");
    assert "aadhaar:" + "123456789012" + "" == "aadhaar:123456789012";
    AadhaarTagInAnyCase("aadhaar:", "123456789012", "");
  }

  /** ... and `Uid:` like `UID:`. */
  lemma MixedCaseUidTag()
    ensures Extract("Uid:123456789012") == Some("123456789012")
  {
    assert EqualsIgnoreCase("Uid:", "UID:");
    assert "Uid:" + "123456789012" == "Uid:123456789012";
    UidTagInAnyCase("Uid:", "123456789012");
  }

  /**
   * A tag must be followed at once by the digits: in `UID: d` the `UID:`
   * pattern does not match, and the digits are found by the grouped pattern.
   */
  lemma SpaceAfterTagFallsThrough(d: string)
    requires |d| == 12 && AllDigits(d)
    ensures var t := "UID: " + d;
      && Exec(Tagged("UID:"), t).None?
      && Exec(Grouped, t) == Some(Match(5, d, d))
      && Extract(t) == Some(d)
  {
    var t := "UID: " + d;
    SpacedTagsMiss(d);
    SpacedGroupHits(d);
    StripKeepsDigits(d);
    ExtractFollowsPatternOrder(t);
  }

  lemma SpacedTagsMiss(d: string)
    requires |d| == 12 && AllDigits(d)
    ensures Exec(Tagged("UID:"), "UID: " + d).None? && Exec(Tagged("AADHAAR:"), "UID: " + d).None?
  {
    var t := "UID: " + d;
    assert t[4] == ' ' && t[1] == 'I';
    forall j | 0 <= j <= |t|
      ensures MatchAt(Tagged("UID:"), t, j).None?
    {
      if j == 0 {
        assert t[4..16][0] == ' ';
      } else if j == 1 {
        assert Canonical(t[1..5][0]) != Canonical("UID:"[0]);
      }
    }
    forall j | 0 <= j <= |t|
      ensures MatchAt(Tagged("AADHAAR:"), t, j).None?
    {
    }
  }

  lemma SpacedGroupHits(d: string)
    requires |d| == 12 && AllDigits(d)
    ensures Exec(Grouped, "UID: " + d) == Some(Match(5, d, d))
  {
    var t := "UID: " + d;
    assert t[5..17] == d && t[3] == ':' && t[4] == ' ';
    forall j | 0 <= j < 5
      ensures MatchAt(Grouped, t, j).None?
    {
      if j < 4 {
        assert t[j..j + 4][3 - j] == ':';
      } else {
        assert t[4..8][0] == ' ';
      }
    }
    assert GroupedForm(t[5..17], d, [], []) by {
      assert d[..4] + [] + d[4..8] + [] + d[8..] == d;
    }
    GroupedEndComplete(t, 5, 17, d, [], []);
    assert MatchAt(Grouped, t, 5) == Some(Match(5, d, d));
  }

  /**
   * A `UID:` tag wins over a bare digit group that appears earlier in the text:
   * in `g UID:d` the grouped pattern's leftmost hit is `g`, at position 0, yet
   * the result is the tagged number `d`.
   */
  lemma TagBeatsEarlierGroup(g: string, d: string)
    requires |g| == 12 && AllDigits(g) && |d| == 12 && AllDigits(d)
    ensures var t := g + " UID:" + d;
      && Exec(Grouped, t) == Some(Match(0, g, g))
      && Exec(Tagged("UID:"), t) == Some(Match(13, "UID:" + d, d))
      && Extract(t) == Some(d)
  {
    var t := g + " UID:" + d;
    LeadingGroupHits(g, d);
    LateTagHits(g, d);
    ExtractFollowsPatternOrder(t);
  }

  lemma LeadingGroupHits(g: string, d: string)
    requires |g| == 12 && AllDigits(g) && |d| == 12 && AllDigits(d)
    ensures Exec(Grouped, g + " UID:" + d) == Some(Match(0, g, g))
  {
    var t := g + " UID:" + d;
    assert t[0..12] == g;
    assert GroupedForm(t[0..12], g, [], []) by {
      assert g[..4] + [] + g[4..8] + [] + g[8..] == g;
    }
    GroupedEndComplete(t, 0, 12, g, [], []);
    assert MatchAt(Grouped, t, 0) == Some(Match(0, g, g));
  }

  lemma LateTagHits(g: string, d: string)
    requires |g| == 12 && AllDigits(g) && |d| == 12 && AllDigits(d)
    ensures Exec(Tagged("AADHAAR:"), g + " UID:" + d).None?
    ensures Exec(Tagged("UID:"), g + " UID:" + d) == Some(Match(13, "UID:" + d, d))
  {
    var t := g + " UID:" + d;
    assert t[13..17] == "UID:" && t[17..29] == d && t[13..29] == "UID:" + d;
    assert forall k :: 0 <= k < 12 ==> t[k] == g[k];
    assert t[12] == ' ';
    forall j | 0 <= j <= |t|
      ensures MatchAt(Tagged("AADHAAR:"), t, j).None?
    {
      if j + 20 <= |t| {
        assert Canonical(t[j..j + 8][0]) != Canonical("AADHAAR:"[0]);
      }
    }
    forall j | 0 <= j < 13
      ensures MatchAt(Tagged("UID:"), t, j).None?
    {
      assert Canonical(t[j..j + 4][0]) != Canonical("UID:"[0]);
    }
    assert MatchAt(Tagged("UID:"), t, 13) == Some(Match(13, "UID:" + d, d));
  }
}

=== FILE: jstext.dfy ===
/**
 * The pieces of JavaScript's string and regular-expression semantics that the
 * identifier patterns rely on: the character classes `\d` and `\s`, the
 * non-unicode case folding of the `i` flag, and `s.replace(/\D/g, "")`.
 */
module JsText {

  /** `\d`: exactly the ASCII digits `0`-`9`, in every mode. */
  predicate IsDigit(c: char) {
    '0' <= c <= '9'
  }

  /** `\s`: the ECMAScript WhiteSpace and LineTerminator code points. */
  predicate IsSpace(c: char) {
    var n := c as int;
    n == 0x09 || n == 0x0A || n == 0x0B || n == 0x0C || n == 0x0D || n == 0x20
    || n == 0xA0 || n == 0x1680 || (0x2000 <= n <= 0x200A) || n == 0x2028
    || n == 0x2029 || n == 0x202F || n == 0x205F || n == 0x3000 || n == 0xFEFF
  }

  predicate AllDigits(s: string) {
    forall k :: 0 <= k < |s| ==> IsDigit(s[k])
  }

  lemma AllDigitsConcat(a: string, b: string)
    requires AllDigits(a) && AllDigits(b)
    ensures AllDigits(a + b)
  {
    forall k | 0 <= k < |a + b|
      ensures IsDigit((a + b)[k])
    {
      if k < |a| {
        assert (a + b)[k] == a[k];
      } else {
        assert (a + b)[k] == b[k - |a|];
      }
    }
  }

  /**
   * The canonical form a character is compared in under the `i` flag, folding
   * only `a`-`z`. The real folding also pairs non-ASCII letters (`é`, `É`), but
   * without the `u` flag it never maps a non-ASCII character onto an ASCII one,
   * so against the ASCII tags this folding gives the same matches.
   */
  function Canonical(c: char): (r: char)
    ensures !('a' <= r <= 'z')
    ensures ('a' <= c <= 'z') || r == c
  {
    if 'a' <= c <= 'z' then (c as int - 32) as char else c
  }

  /**
   * Under the `i` flag as the model folds it, two characters match exactly when
   * they are equal or one is a lower-case ASCII letter and the other its capital.
   */
  lemma CanonicalMatches(c: char, d: char)
    ensures Canonical(c) == Canonical(d) <==>
      || c == d
      || ('a' <= c <= 'z' && d as int == c as int - 32)
      || ('a' <= d <= 'z' && c as int == d as int - 32)
  {
  }

  /** The two strings match each other character by character under the `i` flag. */
  predicate EqualsIgnoreCase(a: string, b: string) {
    |a| == |b| && forall k :: 0 <= k < |a| ==> Canonical(a[k]) == Canonical(b[k])
  }

  /** `\d` is exactly the ten decimal digits. */
  lemma DigitClass(c: char)
    ensures IsDigit(c) <==> c in "0123456789"
  {
    if IsDigit(c) {
      assert "0123456789"[c as int - '0' as int] == c;
    }
  }

  /**
   * `\s` holds space, tab, line feed and carriage return; none of its
   * characters is a digit, and case folding leaves each of them alone.
   */
  lemma SpaceClass(c: char)
    ensures c == ' ' || c == '\t' || c == '\n' || c == '\r' ==> IsSpace(c)
    ensures IsSpace(c) ==> !IsDigit(c) && Canonical(c) == c
  {
  }

  /** Case folding never turns a digit or a whitespace character into anything else. */
  lemma CanonicalKeepsDigitsAndSpaces(c: char, d: char)
    requires Canonical(c) == Canonical(d)
    ensures IsDigit(c) <==> IsDigit(d)
    ensures IsDigit(c) ==> c == d
    ensures IsSpace(c) <==> IsSpace(d)
    ensures IsSpace(c) ==> c == d
  {
  }

  /** `s.replace(/\D/g, "")`: the digits of `s`, in order. */
  function StripNonDigits(s: string): (r: string)
    ensures AllDigits(r)
    ensures |r| <= |s|
  {
    if s == [] then [] else Kept(s[0]) + StripNonDigits(s[1..])
  }

  /** What `/\D/g` leaves of one character. */
  function Kept(c: char): string {
    if IsDigit(c) then [c] else []
  }

  /** Stripping leaves a digit string as it is. */
  lemma {:induction false} StripKeepsDigits(s: string)
    requires AllDigits(s)
    ensures StripNonDigits(s) == s
  {
    if s != [] {
      StripKeepsDigits(s[1..]);
      assert s == [s[0]] + s[1..];
    }
  }

  /** Stripping removes every non-digit: a string without digits leaves nothing. */
  lemma {:induction false} StripDropsNonDigits(s: string)
    requires forall k :: 0 <= k < |s| ==> !IsDigit(s[k])
    ensures StripNonDigits(s) == []
  {
    if s != [] {
      assert forall k :: 0 <= k < |s| - 1 ==> s[1..][k] == s[k + 1];
      StripDropsNonDigits(s[1..]);
    }
  }

  lemma {:induction false} StripConcat(a: string, b: string)
    ensures StripNonDigits(a + b) == StripNonDigits(a) + StripNonDigits(b)
  {
    if a == [] {
      assert a + b == b;
    } else {
      var ab := a + b;
      assert ab[0] == a[0];
      assert ab[1..] == a[1..] + b;
      assert StripNonDigits(ab) == Kept(a[0]) + StripNonDigits(a[1..] + b);
      StripConcat(a[1..], b);
      assert StripNonDigits(a) == Kept(a[0]) + StripNonDigits(a[1..]);
    }
  }

  /** Stripping is blind to ASCII letter case: strings equal up to it keep the same digits. */
  lemma {:induction false} StripIgnoresCase(a: string, b: string)
    requires EqualsIgnoreCase(a, b)
    ensures StripNonDigits(a) == StripNonDigits(b)
  {
    if a != [] {
      CanonicalKeepsDigitsAndSpaces(a[0], b[0]);
      assert EqualsIgnoreCase(a[1..], b[1..]) by {
        forall k | 0 <= k < |a| - 1
          ensures Canonical(a[1..][k]) == Canonical(b[1..][k])
        {
          assert a[1..][k] == a[k + 1] && b[1..][k] == b[k + 1];
        }
      }
      StripIgnoresCase(a[1..], b[1..]);
    }
  }

  /** Equality up to ASCII letter case carries over to every slice. */
  lemma SliceIgnoresCase(a: string, b: string, lo: nat, hi: nat)
    requires EqualsIgnoreCase(a, b) && lo <= hi <= |a|
    ensures EqualsIgnoreCase(a[lo..hi], b[lo..hi])
  {
    forall k | 0 <= k < hi - lo
      ensures Canonical(a[lo..hi][k]) == Canonical(b[lo..hi][k])
    {
      assert a[lo..hi][k] == a[lo + k] && b[lo..hi][k] == b[lo + k];
    }
  }

  /** Strings equal up to ASCII letter case are digit strings together, and then equal. */
  lemma DigitsIgnoreCase(a: string, b: string)
    requires EqualsIgnoreCase(a, b)
    ensures AllDigits(a) <==> AllDigits(b)
    ensures AllDigits(a) ==> a == b
  {
    forall k | 0 <= k < |a|
      ensures IsDigit(a[k]) <==> IsDigit(b[k])
      ensures IsDigit(a[k]) ==> a[k] == b[k]
    {
      CanonicalKeepsDigitsAndSpaces(a[k], b[k]);
    }
  }
}

=== FILE: patterns.dfy ===
/**
 * The four regular expressions of `QRScanner.aadhaarPatterns` and what
 * `text.match(pattern)` returns for each of them.
 */
module Patterns {
  import opened Wrappers
  import opened JsText

  /**
   * The shapes of pattern in the list:
   *   Tagged(tag)  is  /TAG(\d{12})/i   (tag of ASCII characters)
   *   Grouped      is  /(\d{4}\s?\d{4}\s?\d{4})/
   *   Whole        is  /^(\d{12})$/
   */
  datatype Pattern = Tagged(tag: string) | Grouped | Whole

  /** The list, in the order `extractAadhaar` tries it. */
  const AadhaarPatterns: seq<Pattern> := [Tagged("AADHAAR:"), Tagged("UID:"), Grouped, Whole]

  /** A successful `match`: its `index`, `match[0]` and `match[1]`. */
  datatype Match = Match(index: nat, whole: string, group: string)

  /** `\d{n}` matches at position j. */
  predicate DigitsAt(text: string, j: nat, n: nat) {
    j + n <= |text| && AllDigits(text[j..j + n])
  }

  /** `\s?\d{4}` starting at j: the greedy `\s?` takes a whitespace character first. */
  function BlockEnd(text: string, j: nat): (e: Option<nat>)
    ensures e.Some? ==> j + 4 <= e.value <= j + 5 && e.value <= |text|
  {
    if j < |text| && IsSpace(text[j]) && DigitsAt(text, j + 1, 4) then Some(j + 5)
    else if DigitsAt(text, j, 4) then Some(j + 4)
    else None
  }

  /**
   * Where `\d{4}\s?\d{4}\s?\d{4}` ends when it starts at i. Backtracking into an
   * earlier `\s?` never helps: a whitespace character is never a digit.
   */
  function GroupedEnd(text: string, i: nat): (e: Option<nat>)
    ensures e.Some? ==> i + 12 <= e.value <= i + 14 && e.value <= |text|
  {
    if !DigitsAt(text, i, 4) then None
    else match BlockEnd(text, i + 4)
      case None => None
      case Some(e1) => BlockEnd(text, e1)
  }

  /** `\s?`: nothing, or one whitespace character. */
  predicate Separator(w: string) {
    |w| == 0 || (|w| == 1 && IsSpace(w[0]))
  }

  /** `s` is a word of `\d{4}\s?\d{4}\s?\d{4}` whose twelve digits, in order, are `d`. */
  predicate GroupedForm(s: string, d: string, w1: string, w2: string) {
    |d| == 12 && AllDigits(d) && Separator(w1) && Separator(w2)
    && s == d[..4] + w1 + d[4..8] + w2 + d[8..]
  }

  /** The language of `\d{4}\s?\d{4}\s?\d{4}`. */
  ghost predicate IsGroupedWord(s: string) {
    exists d, w1, w2 :: GroupedForm(s, d, w1, w2)
  }

  /** The pattern matches at exactly position i (no search). */
  function MatchAt(p: Pattern, text: string, i: nat): (r: Option<Match>)
    requires i <= |text|
    ensures r.Some? ==> r.value.index == i && i + |r.value.whole| <= |text|
    ensures r.Some? ==> r.value.whole == text[i..i + |r.value.whole|]
    ensures r.Some? ==> |r.value.group| >= 12
  {
    match p
    case Tagged(tag) =>
      var n := |tag|;
      if i + n + 12 <= |text| && EqualsIgnoreCase(text[i..i + n], tag) && DigitsAt(text, i + n, 12)
      then Some(Match(i, text[i..i + n + 12], text[i + n..i + n + 12]))
      else None
    case Grouped =>
      (match GroupedEnd(text, i)
       case Some(e) => Some(Match(i, text[i..e], text[i..e]))
       case None => None)
    case Whole =>
      if i == 0 && |text| == 12 && AllDigits(text) then Some(Match(0, text, text)) else None
  }

  /** The leftmost match at or after position i. */
  function SearchFrom(p: Pattern, text: string, i: nat): (r: Option<Match>)
    requires i <= |text|
    ensures r.Some? ==> i <= r.value.index <= |text| && MatchAt(p, text, r.value.index) == r
    ensures r.Some? ==> forall j :: i <= j < r.value.index ==> MatchAt(p, text, j).None?
    ensures r.None? <==> forall j :: i <= j <= |text| ==> MatchAt(p, text, j).None?
    decreases |text| - i
  {
    match MatchAt(p, text, i)
    case Some(m) => Some(m)
    case None => if i == |text| then None else SearchFrom(p, text, i + 1)
  }

  /** `text.match(p)` for a non-global pattern: the leftmost match, or `null`. */
  function Exec(p: Pattern, text: string): Option<Match> {
    SearchFrom(p, text, 0)
  }

  /** `text.match(p)` returns a match at its own index, the leftmost one, or `null` when there is none. */
  lemma ExecLeftmost(p: Pattern, text: string)
    ensures var r := Exec(p, text);
      && (r.Some? ==> r.value.index <= |text| && MatchAt(p, text, r.value.index) == r)
      && (r.Some? ==> forall j :: 0 <= j < r.value.index ==> MatchAt(p, text, j).None?)
      && (r.None? <==> forall j :: 0 <= j <= |text| ==> MatchAt(p, text, j).None?)
  {
  }

  lemma GroupedFormFacts(s: string, d: string, w1: string, w2: string)
    requires GroupedForm(s, d, w1, w2)
    ensures |s| == 12 + |w1| + |w2|
    ensures s[..4] == d[..4]
    ensures s[4..4 + |w1|] == w1
    ensures s[4 + |w1|..8 + |w1|] == d[4..8]
    ensures s[8 + |w1|..8 + |w1| + |w2|] == w2
    ensures s[8 + |w1| + |w2|..] == d[8..]
  {
  }

  /** A sub-slice of a slice is a slice of the whole. */
  lemma SliceOfSlice(text: string, i: nat, e: nat, x: nat, y: nat)
    requires i <= e <= |text| && x <= y <= e - i
    ensures text[i..e][x..y] == text[i + x..i + y]
  {
    assert forall k :: 0 <= k < y - x ==> text[i..e][x..y][k] == text[i + x..i + y][k];
  }

  lemma SliceSplit(text: string, a: nat, b: nat, c: nat)
    requires a <= b <= c <= |text|
    ensures text[a..c] == text[a..b] + text[b..c]
  {
  }

  /** What `\s?\d{4}` consumed when it ended at e: a separator, then four digits. */
  lemma BlockShape(text: string, j: nat, e: nat)
    requires BlockEnd(text, j) == Some(e)
    ensures j <= e - 4 && Separator(text[j..e - 4]) && AllDigits(text[e - 4..e])
  {
  }

  /** `\s?` never contributes a digit. */
  lemma StripSeparator(w: string)
    requires Separator(w)
    ensures StripNonDigits(w) == []
  {
  }

  /** Three digit blocks and two separators form a grouped word, whose digits are the blocks. */
  lemma AssembleGrouped(a: string, w1: string, b: string, w2: string, c: string)
    requires |a| == 4 && |b| == 4 && |c| == 4
    requires AllDigits(a) && AllDigits(b) && AllDigits(c)
    requires Separator(w1) && Separator(w2)
    ensures GroupedForm(a + w1 + b + w2 + c, a + b + c, w1, w2)
  {
    var d := a + b + c;
    AllDigitsConcat(a, b);
    AllDigitsConcat(a + b, c);
    assert d[..4] == a;
    assert d[4..8] == b;
    assert d[8..] == c;
  }

  lemma StripGrouped(a: string, w1: string, b: string, w2: string, c: string)
    requires AllDigits(a) && AllDigits(b) && AllDigits(c)
    requires Separator(w1) && Separator(w2)
    ensures StripNonDigits(a + w1 + b + w2 + c) == a + b + c
  {
    var x1 := a + w1;
    assert StripNonDigits(x1) == a by {
      StripConcat(a, w1);
      StripKeepsDigits(a);
      StripSeparator(w1);
      assert a + [] == a;
    }
    var x2 := x1 + b;
    assert StripNonDigits(x2) == a + b by {
      StripConcat(x1, b);
      StripKeepsDigits(b);
    }
    var x3 := x2 + w2;
    assert StripNonDigits(x3) == a + b by {
      StripConcat(x2, w2);
      StripSeparator(w2);
      assert a + b + [] == a + b;
    }
    assert StripNonDigits(x3 + c) == a + b + c by {
      StripConcat(x3, c);
      StripKeepsDigits(c);
    }
  }

  lemma SliceFive(text: string, p0: nat, p1: nat, p2: nat, p3: nat, p4: nat, p5: nat)
    requires p0 <= p1 <= p2 <= p3 <= p4 <= p5 <= |text|
    ensures text[p0..p5] == text[p0..p1] + text[p1..p2] + text[p2..p3] + text[p3..p4] + text[p4..p5]
  {
    SliceSplit(text, p0, p4, p5);
    SliceSplit(text, p0, p3, p4);
    SliceSplit(text, p0, p2, p3);
    SliceSplit(text, p0, p1, p2);
  }

  /** Four digits, `\s?\d{4}` up to e1 and `\s?\d{4}` up to e spell a grouped word. */
  lemma GroupedWordFromBlocks(text: string, i: nat, e1: nat, e: nat)
    requires i + 4 <= e1 - 4 && e1 <= e - 4 && e <= |text|
    requires AllDigits(text[i..i + 4]) && AllDigits(text[e1 - 4..e1]) && AllDigits(text[e - 4..e])
    requires Separator(text[i + 4..e1 - 4]) && Separator(text[e1..e - 4])
    ensures GroupedForm(text[i..e], StripNonDigits(text[i..e]), text[i + 4..e1 - 4], text[e1..e - 4])
  {
    var a, w1, b, w2, c := text[i..i + 4], text[i + 4..e1 - 4], text[e1 - 4..e1], text[e1..e - 4], text[e - 4..e];
    SliceFive(text, i, i + 4, e1 - 4, e1, e - 4, e);
    AssembleGrouped(a, w1, b, w2, c);
    StripGrouped(a, w1, b, w2, c);
  }

  /** The grouped search at i succeeds only on words of its language (soundness). */
  lemma {:induction false} GroupedEndSound(text: string, i: nat, e: nat)
    requires GroupedEnd(text, i) == Some(e)
    ensures i <= e <= |text|
    ensures exists w1, w2 :: GroupedForm(text[i..e], StripNonDigits(text[i..e]), w1, w2)
  {
    assert DigitsAt(text, i, 4);
    var e1 := BlockEnd(text, i + 4).value;
    assert BlockEnd(text, e1) == Some(e);
    BlockShape(text, i + 4, e1);
    BlockShape(text, e1, e);
    GroupedWordFromBlocks(text, i, e1, e);
  }

  /** `\s?\d{4}` consumes exactly a separator followed by four digits. */
  lemma BlockEndOn(text: string, j: nat, w: string, blk: string)
    requires Separator(w) && |blk| == 4 && AllDigits(blk)
    requires j + |w| + 4 <= |text| && text[j..j + |w|] == w && text[j + |w|..j + |w| + 4] == blk
    ensures BlockEnd(text, j) == Some(j + |w| + 4)
  {
    if |w| == 1 {
      assert text[j] == text[j..j + 1][0] == w[0];
    } else {
      assert text[j] == blk[0];
    }
  }

  /** ... and on every such word, ending exactly where the word ends (completeness). */
  lemma GroupedEndComplete(text: string, i: nat, e: nat, d: string, w1: string, w2: string)
    requires i <= e <= |text|
    requires GroupedForm(text[i..e], d, w1, w2)
    ensures GroupedEnd(text, i) == Some(e)
  {
    var s := text[i..e];
    GroupedFormFacts(s, d, w1, w2);
    var e1 := i + 8 + |w1|;
    SliceOfSlice(text, i, e, 0, 4);
    SliceOfSlice(text, i, e, 4, 4 + |w1|);
    SliceOfSlice(text, i, e, 4 + |w1|, 8 + |w1|);
    SliceOfSlice(text, i, e, 8 + |w1|, 8 + |w1| + |w2|);
    SliceOfSlice(text, i, e, 8 + |w1| + |w2|, |s|);
    assert DigitsAt(text, i, 4);
    BlockEndOn(text, i + 4, w1, d[4..8]);
    BlockEndOn(text, e1, w2, d[8..]);
  }

  /**
   * Every match of every pattern carries a capture that keeps exactly twelve
   * digits once its non-digits are stripped.
   */
  lemma CaptureKeepsTwelveDigits(p: Pattern, text: string, i: nat)
    requires i <= |text| && MatchAt(p, text, i).Some?
    ensures |StripNonDigits(MatchAt(p, text, i).value.group)| == 12
    ensures !p.Grouped? ==> StripNonDigits(MatchAt(p, text, i).value.group) == MatchAt(p, text, i).value.group
  {
    var g := MatchAt(p, text, i).value.group;
    if p.Grouped? {
      GroupedEndSound(text, i, GroupedEnd(text, i).value);
    } else {
      assert AllDigits(g);
      StripKeepsDigits(g);
    }
  }

  /**
   * Two hits agree on everything `extractAadhaar` looks at: where they are and
   * which digits their capture keeps.
   */
  predicate SameHit(a: Option<Match>, b: Option<Match>) {
    a.Some? == b.Some?
    && (a.Some? ==> a.value.index == b.value.index && StripNonDigits(a.value.group) == StripNonDigits(b.value.group))
  }

  lemma DigitsAtIgnoresCase(t1: string, t2: string, j: nat, n: nat)
    requires EqualsIgnoreCase(t1, t2)
    ensures DigitsAt(t1, j, n) <==> DigitsAt(t2, j, n)
  {
    if j + n <= |t1| {
      SliceIgnoresCase(t1, t2, j, j + n);
      DigitsIgnoreCase(t1[j..j + n], t2[j..j + n]);
    }
  }

  lemma BlockEndIgnoresCase(t1: string, t2: string, j: nat)
    requires EqualsIgnoreCase(t1, t2)
    ensures BlockEnd(t1, j) == BlockEnd(t2, j)
  {
    if j < |t1| {
      CanonicalKeepsDigitsAndSpaces(t1[j], t2[j]);
    }
    DigitsAtIgnoresCase(t1, t2, j + 1, 4);
    DigitsAtIgnoresCase(t1, t2, j, 4);
  }

  /** The `i` flag and the case-blind `\d`, `\s`: a match does not depend on ASCII letter case. */
  lemma MatchAtIgnoresCase(p: Pattern, t1: string, t2: string, i: nat)
    requires EqualsIgnoreCase(t1, t2) && i <= |t1|
    ensures SameHit(MatchAt(p, t1, i), MatchAt(p, t2, i))
  {
    match p
    case Tagged(tag) => TaggedIgnoresCase(tag, t1, t2, i);
    case Grouped => GroupedIgnoresCase(t1, t2, i);
    case Whole =>
      DigitsIgnoreCase(t1, t2);
      StripIgnoresCase(t1, t2);
  }

  lemma TaggedIgnoresCase(tag: string, t1: string, t2: string, i: nat)
    requires EqualsIgnoreCase(t1, t2) && i <= |t1|
    ensures SameHit(MatchAt(Tagged(tag), t1, i), MatchAt(Tagged(tag), t2, i))
  {
    var n := |tag|;
    DigitsAtIgnoresCase(t1, t2, i + n, 12);
    if i + n + 12 <= |t1| {
      SliceIgnoresCase(t1, t2, i, i + n);
      SameTagIgnoringCase(t1[i..i + n], t2[i..i + n], tag);
      SliceIgnoresCase(t1, t2, i + n, i + n + 12);
      StripIgnoresCase(t1[i + n..i + n + 12], t2[i + n..i + n + 12]);
    }
  }

  lemma SameTagIgnoringCase(a: string, b: string, tag: string)
    requires EqualsIgnoreCase(a, b)
    ensures EqualsIgnoreCase(a, tag) <==> EqualsIgnoreCase(b, tag)
  {
  }

  lemma GroupedIgnoresCase(t1: string, t2: string, i: nat)
    requires EqualsIgnoreCase(t1, t2) && i <= |t1|
    ensures SameHit(MatchAt(Grouped, t1, i), MatchAt(Grouped, t2, i))
  {
    DigitsAtIgnoresCase(t1, t2, i, 4);
    BlockEndIgnoresCase(t1, t2, i + 4);
    if BlockEnd(t1, i + 4).Some? {
      BlockEndIgnoresCase(t1, t2, BlockEnd(t1, i + 4).value);
    }
    assert GroupedEnd(t1, i) == GroupedEnd(t2, i);
    if GroupedEnd(t1, i).Some? {
      var e := GroupedEnd(t1, i).value;
      SliceIgnoresCase(t1, t2, i, e);
      StripIgnoresCase(t1[i..e], t2[i..e]);
    }
  }

  /** The leftmost match does not depend on ASCII letter case either. */
  lemma SearchFromIgnoresCase(p: Pattern, t1: string, t2: string, i: nat)
    requires EqualsIgnoreCase(t1, t2) && i <= |t1|
    ensures SameHit(SearchFrom(p, t1, i), SearchFrom(p, t2, i))
  {
    forall j | i <= j <= |t1|
      ensures SameHit(MatchAt(p, t1, j), MatchAt(p, t2, j))
    {
      MatchAtIgnoresCase(p, t1, t2, j);
    }
    var r1, r2 := SearchFrom(p, t1, i), SearchFrom(p, t2, i);
    if r1.Some? {
      var k := r1.value.index;
      assert MatchAt(p, t2, k).Some?;
      var k2 := r2.value.index;
      assert MatchAt(p, t1, k2).Some?;
      assert k == k2;
    } else {
      assert r2.None?;
    }
  }
}

=== FILE: scanner.dfy ===
/**
 * The scan session of `QRScanner`: the fields `html5QrCode`, `scanning`,
 * `scanTimer` and `scanStartTime`, the global `window.scannedAadhaar`, and the
 * methods that change them. The camera library (`Html5Qrcode.start`/`stop`)
 * and the browser timers are outside the model: whether `start` succeeds, the
 * clock reading and the interval handle are parameters.
 */
module Scanner {
  import opened Wrappers
  import opened JsText
  import opened Extraction
  import opened ScanTimer

  /** Identity of an `Html5Qrcode` instance. */
  type ReaderId = nat

  /** The handle `setInterval` returns. */
  type TimerId = nat

  /** The session fields of a `QRScanner`, as one value. */
  datatype Session = Session(
    html5QrCode: Option<ReaderId>,
    scanning: bool,
    scanTimer: Option<TimerId>,
    scanStartTime: Option<int>)

  /**
   * The invariant the methods keep: a timer runs exactly while scanning, and
   * scanning needs a reader and a start time.
   */
  predicate Consistent(s: Session) {
    (s.scanning <==> s.scanTimer.Some?)
    && (s.scanning ==> s.html5QrCode.Some? && s.scanStartTime.Some?)
  }

  /** What the constructor leaves: no reader, not scanning, no timer. */
  const Initial: Session := Session(None, false, None, None)

  /**
   * `startCamera`: when there is a reader and the library starts it, the
   * session is scanning, with a fresh timer started now; otherwise the error is
   * shown and nothing changes.
   */
  function Started(s: Session, startSucceeds: bool, nowMs: int, timer: TimerId): (t: Session)
    ensures t.html5QrCode == s.html5QrCode
    ensures s.html5QrCode.Some? && startSucceeds ==>
      t.scanning && t.scanTimer == Some(timer) && t.scanStartTime == Some(nowMs)
    ensures s.html5QrCode.None? || !startSucceeds ==> t == s
    ensures Consistent(s) ==> Consistent(t)
  {
    if s.html5QrCode.Some? && startSucceeds
    then s.(scanning := true, scanTimer := Some(timer), scanStartTime := Some(nowMs))
    else s
  }

  /**
   * `stopCamera`: only a scanning session with a reader is stopped; a stopped
   * consistent session is not scanning and has no timer.
   */
  function Stopped(s: Session): (t: Session)
    ensures !(s.html5QrCode.Some? && s.scanning) ==> t == s
    ensures Consistent(s) ==> Consistent(t) && !t.scanning && t.scanTimer.None?
    ensures t.html5QrCode == s.html5QrCode && t.scanStartTime == s.scanStartTime
  {
    if s.html5QrCode.Some? && s.scanning then s.(scanning := false, scanTimer := None) else s
  }

  /** `cleanup`: stop, then drop the reader. */
  function CleanedUp(s: Session): (t: Session)
    ensures t.html5QrCode.None?
    ensures Consistent(s) ==> Consistent(t) && !t.scanning && t.scanTimer.None?
  {
    Stopped(s).(html5QrCode := None)
  }

  /**
   * `onScanSuccess`: the session and the stored identifier after a decoded
   * text arrives. Nothing changes unless extraction succeeds; then the camera
   * is stopped and exactly the extracted twelve digits are stored.
   */
  function AfterScan(s: Session, stored: Option<string>, text: string): (r: (Session, Option<string>))
    ensures Extract(text).None? ==> r == (s, stored)
    ensures Extract(text).Some? ==> r.0 == Stopped(s) && r.1 == Extract(text)
    ensures r.1 != stored ==> r.1.Some? && |r.1.value| == 12 && AllDigits(r.1.value)
    ensures Consistent(s) ==> Consistent(r.0)
  {
    match Extract(text)
    case None => (s, stored)
    case Some(id) => (Stopped(s), Some(id))
  }

  /** Stopping twice is stopping once. */
  lemma StopIdempotent(s: Session)
    ensures Stopped(Stopped(s)) == Stopped(s)
  {
  }

  /** A second `cleanup` changes nothing. */
  lemma CleanupIdempotent(s: Session)
    ensures CleanedUp(CleanedUp(s)) == CleanedUp(s)
  {
  }

  /** The calls that drive a session, one per method of `QRScanner` that changes it. */
  datatype Event =
    | Attach(reader: ReaderId)
    | Start(startSucceeds: bool, nowMs: int, timer: TimerId)
    | Stop
    | Decode(text: string)
    | Close

  /** What `window.scannedAadhaar` may hold: nothing yet, or a twelve-digit identifier. */
  predicate StoredWellFormed(stored: Option<string>) {
    stored.Some? ==> |stored.value| == 12 && AllDigits(stored.value)
  }

  function Step(s: Session, stored: Option<string>, e: Event): (Session, Option<string>) {
    match e
    case Attach(reader) => (s.(html5QrCode := Some(reader)), stored)
    case Start(ok, nowMs, timer) => (Started(s, ok, nowMs, timer), stored)
    case Stop => (Stopped(s), stored)
    case Decode(text) => AfterScan(s, stored, text)
    case Close => (CleanedUp(s), stored)
  }

  /** The session and stored identifier after the events, in order. */
  function Run(s: Session, stored: Option<string>, events: seq<Event>): (Session, Option<string>)
    decreases |events|
  {
    if events == [] then (s, stored)
    else
      var (s', stored') := Step(s, stored, events[0]);
      Run(s', stored', events[1..])
  }

  /**
   * Whatever sequence of calls a scanner receives after its constructor, the
   * timer runs exactly while scanning, scanning needs a reader, and the stored
   * identifier is unset or exactly twelve ASCII digits.
   */
  lemma {:induction false} RunKeepsInvariant(s: Session, stored: Option<string>, events: seq<Event>)
    requires Consistent(s) && StoredWellFormed(stored)
    ensures Consistent(Run(s, stored, events).0) && StoredWellFormed(Run(s, stored, events).1)
    decreases |events|
  {
    if events != [] {
      var (s', stored') := Step(s, stored, events[0]);
      assert Consistent(s') && StoredWellFormed(stored');
      RunKeepsInvariant(s', stored', events[1..]);
    }
  }

  lemma FromFreshScanner(events: seq<Event>)
    ensures Consistent(Run(Initial, None, events).0) && StoredWellFormed(Run(Initial, None, events).1)
  {
    RunKeepsInvariant(Initial, None, events);
  }

  /** The page's global `window.scannedAadhaar`. */
  class Window {
    var scannedAadhaar: Option<string>

    /** Before any scan the global is unset. */
    constructor()
      ensures scannedAadhaar.None?
    {
      scannedAadhaar := None;
    }
  }

  class QRScanner {
    var html5QrCode: Option<ReaderId>
    var scanning: bool
    var scanTimer: Option<TimerId>
    var scanStartTime: Option<int>

    function State(): Session
      reads this
    {
      Session(html5QrCode, scanning, scanTimer, scanStartTime)
    }

    ghost predicate Valid()
      reads this
    {
      Consistent(State())
    }

    constructor()
      ensures State() == Initial && Valid()
    {
      html5QrCode := None;
      scanning := false;
      scanTimer := None;
      scanStartTime := None;
    }

    /** `this.html5QrCode = new Html5Qrcode("qrReader")`, the step of `initialize` that attaches a reader. */
    method AttachReader(reader: ReaderId)
      requires Valid()
      modifies this
      ensures Valid()
      ensures State() == old(State()).(html5QrCode := Some(reader))
    {
      html5QrCode := Some(reader);
    }

    /** `startTimer`: record the start time and keep the interval handle. */
    method StartTimer(nowMs: int, timer: TimerId)
      modifies this
      ensures State() == old(State()).(scanTimer := Some(timer), scanStartTime := Some(nowMs))
    {
      scanStartTime := Some(nowMs);
      scanTimer := Some(timer);
    }

    /** `stopTimer`: clear the interval and forget its handle. */
    method StopTimer()
      modifies this
      ensures State() == old(State()).(scanTimer := None)
    {
      scanTimer := None;
    }

    method StartCamera(startSucceeds: bool, nowMs: int, timer: TimerId)
      requires Valid()
      modifies this
      ensures Valid()
      ensures State() == Started(old(State()), startSucceeds, nowMs, timer)
    {
      if html5QrCode.None? || !startSucceeds {
        return;
      }
      scanning := true;
      StartTimer(nowMs, timer);
    }

    method StopCamera()
      requires Valid()
      modifies this
      ensures Valid() && !scanning && scanTimer.None?
      ensures State() == Stopped(old(State()))
    {
      if html5QrCode.Some? && scanning {
        scanning := false;
        StopTimer();
      }
    }

    method OnScanSuccess(text: string, window: Window)
      requires Valid()
      modifies this, window
      ensures Valid()
      ensures (State(), window.scannedAadhaar) == AfterScan(old(State()), old(window.scannedAadhaar), text)
    {
      var aadhaar := ExtractAadhaar(text);
      if aadhaar.None? {
        return;
      }
      StopCamera();
      window.scannedAadhaar := aadhaar;
    }

    method Cleanup()
      requires Valid()
      modifies this
      ensures Valid() && html5QrCode.None? && !scanning && scanTimer.None?
      ensures State() == CleanedUp(old(State()))
    {
      StopCamera();
      html5QrCode := None;
    }

    /**
     * What the running timer shows at `nowMs`: the whole seconds elapsed since
     * the scan started, after `00:`.
     */
    function TimerText(nowMs: int): (r: string)
      reads this
      requires scanStartTime.Some?
      ensures nowMs >= scanStartTime.value ==>
        && |r| >= 5 && r[..3] == "00:" && AllDigits(r[3..])
        && DecimalValue(r[3..]) * 1000 <= nowMs - scanStartTime.value < (DecimalValue(r[3..]) + 1) * 1000
        && (|r| == 5 <==> DecimalValue(r[3..]) < 100)
        && (|r| > 5 ==> r[3] != '0')
    {
      var seconds := ElapsedSeconds(scanStartTime.value, nowMs);
      if seconds >= 0 then TimerLabelShowsSeconds(seconds); TimerLabel(seconds)
      else TimerLabel(seconds)
    }
  }
}

=== FILE: scantimer.dfy ===
/**
 * The text the scan timer shows every second: `00:` followed by the elapsed
 * whole seconds, `String(s).padStart(2, "0")`.
 */
module ScanTimer {
  import opened JsText

  function DigitChar(d: nat): (c: char)
    requires d < 10
    ensures IsDigit(c)
  {
    ('0' as int + d) as char
  }

  function DigitValue(c: char): (d: nat)
    requires IsDigit(c)
    ensures d < 10 && DigitChar(d) == c
  {
    c as int - '0' as int
  }

  /** `String(n)` for a non-negative integer: its decimal digits, without leading zeros. */
  function DecimalString(n: nat): (s: string)
    ensures 1 <= |s| && AllDigits(s)
    ensures s[0] == '0' ==> n == 0
    ensures |s| == 1 <==> n < 10
    decreases n
  {
    if n < 10 then [DigitChar(n)] else DecimalString(n / 10) + [DigitChar(n % 10)]
  }

  /** The number a string of decimal digits denotes. */
  function DecimalValue(s: string): nat
    requires AllDigits(s)
  {
    if s == [] then 0 else DecimalValue(s[..|s| - 1]) * 10 + DigitValue(s[|s| - 1])
  }

  /**
   * `String(n)` for any integer: digits that read back as n, without a leading
   * zero, and for a negative n a minus sign before the digits of its magnitude.
   */
  function JsString(n: int): (s: string)
    ensures n >= 0 ==> |s| >= 1 && AllDigits(s) && DecimalValue(s) == n && (s[0] == '0' ==> n == 0)
    ensures n < 0 ==> |s| >= 2 && s[0] == '-' && AllDigits(s[1..]) && DecimalValue(s[1..]) == -n && s[1] != '0'
  {
    if n < 0 then
      var digits := DecimalString(-n);
      DecimalRoundTrip(-n);
      assert ("-" + digits)[1..] == digits;
      "-" + digits
    else
      DecimalRoundTrip(n);
      DecimalString(n)
  }

  /** `s.padStart(width, fill)` with a one-character fill string. */
  function PadStart(s: string, width: nat, fill: char): (r: string)
    ensures |r| == if |s| >= width then |s| else width
    ensures r[|r| - |s|..] == s
    ensures forall k :: 0 <= k < |r| - |s| ==> r[k] == fill
  {
    if |s| >= width then s else seq(width - |s|, _ => fill) + s
  }

  /** The label the timer shows after `seconds` whole seconds. */
  function TimerLabel(seconds: int): (shown: string)
    ensures |shown| == 3 + (if |JsString(seconds)| >= 2 then |JsString(seconds)| else 2)
    ensures |shown| >= 5 && shown[..3] == "00:"
    ensures shown[|shown| - |JsString(seconds)|..] == JsString(seconds)
    ensures forall k :: 3 <= k < |shown| - |JsString(seconds)| ==> shown[k] == '0'
  {
    "00:" + PadStart(JsString(seconds), 2, '0')
  }

  /** `Math.floor((now - start) / 1000)` over milliseconds: the whole seconds elapsed. */
  function ElapsedSeconds(startMs: int, nowMs: int): (s: int)
    ensures s * 1000 <= nowMs - startMs < (s + 1) * 1000
  {
    (nowMs - startMs) / 1000
  }

  lemma {:induction false} DecimalRoundTrip(n: nat)
    ensures DecimalValue(DecimalString(n)) == n
    decreases n
  {
    var s := DecimalString(n);
    if n < 10 {
      assert s[..0] == [];
    } else {
      DecimalRoundTrip(n / 10);
      assert s[..|s| - 1] == DecimalString(n / 10);
    }
  }

  /** A leading zero does not change the value of a digit string. */
  lemma {:induction false} LeadingZero(s: string)
    requires AllDigits(s)
    ensures AllDigits("0" + s) && DecimalValue("0" + s) == DecimalValue(s)
    decreases |s|
  {
    var z := "0" + s;
    if s == [] {
      assert z[..0] == [];
    } else {
      assert z[..|z| - 1] == "0" + s[..|s| - 1];
      LeadingZero(s[..|s| - 1]);
    }
  }

  /** Two decimal digits are enough exactly below one hundred. */
  lemma DecimalWidth(n: nat)
    ensures |DecimalString(n)| <= 2 <==> n < 100
  {
    if n >= 10 {
      assert |DecimalString(n)| == |DecimalString(n / 10)| + 1;
    }
  }

  /**
   * For a non-negative count the label is `00:` and then digits whose value is
   * the count: exactly two below one hundred, and otherwise the count's own
   * digits, without a padding zero. The
   * minutes field stays `00` past sixty seconds (`00:75`).
   */
  lemma TimerLabelShowsSeconds(seconds: nat)
    ensures var shown := TimerLabel(seconds);
      && |shown| >= 5
      && shown[..3] == "00:"
      && AllDigits(shown[3..])
      && DecimalValue(shown[3..]) == seconds
      && (|shown| == 5 <==> seconds < 100)
      && (|shown| > 5 ==> shown[3] != '0')
  {
    var digits := DecimalString(seconds);
    var shown := TimerLabel(seconds);
    DecimalRoundTrip(seconds);
    DecimalWidth(seconds);
    assert shown[3..] == PadStart(digits, 2, '0');
    if |digits| < 2 {
      assert PadStart(digits, 2, '0') == "0" + digits;
      LeadingZero(digits);
    }
  }

  /** Different counts give different labels. */
  lemma TimerLabelInjective(a: nat, b: nat)
    requires TimerLabel(a) == TimerLabel(b)
    ensures a == b
  {
    TimerLabelShowsSeconds(a);
    TimerLabelShowsSeconds(b);
  }

  /** A clock that went backwards shows a minus sign: `00:-5`. */
  lemma {:induction false} NegativeElapsedLabel(n: nat)
    requires n > 0
    ensures TimerLabel(-(n as int)) == "00:-" + DecimalString(n)
  {
    var m := -(n as int);
    var s := JsString(m);
    assert s == "-" + DecimalString(n);
    assert |s| >= 2;
    assert PadStart(s, 2, '0') == s;
  }
}

=== FILE: wrappers.dfy ===
/** The optional value used wherever the scanner holds `null` or a value. */
module Wrappers {
  datatype Option<+T> = None | Some(value: T)
}
